=== FILE: README.md ===
# Project templates: text and name handling

A Dafny model of the text and name-handling layer of the project-template
code in `pkg/workspace/templates.go`. When a new project is created from a
template, that code does the following:

- It walks the template directory (`walkFiles`). It never hands the manifest
  `.pulumi.template.yaml` to the action, and each dest path mirrors its source
  path.
- It checks in a dry run that no file would be overwritten
  (`CopyTemplateFilesDryRun`). When some would be, it reports them all in
  one error (`newExistingFilesError`).
- It copies every entry (`CopyTemplateFiles`). Binary files are written byte
  for byte; git's rule tells them apart: a zero byte among the first 8000
  (`isBinary`). Text files have `${PROJECT}` and `${DESCRIPTION}`
  substituted (`transform`).
- After installing a template on Windows, it rewrites every text file with
  `\r\n` line endings (`fixWindowsLineEndings`).
- It picks the project name and description (`getValidProjectName`,
  `ValueOrSanitizedDefaultProjectName`, `ValueOrDefaultProjectDescription`).

Go strings are modelled as byte sequences (`Common.Bytes`). Go's
`strings.Replace(s, old, new, -1)` is modelled exactly in `Replace`:
leftmost matches, no overlap, and inserted text is never rescanned. The
validity test `tokens.IsPackageName` is not part of this model. Every name
operation takes it as a parameter `valid`, and no proof assumes anything
about which names it accepts.

The file system is not modelled. A template is a tree of `Walk.Node`s. A
walk's action is a function from the visit to the error it returns. The
calls the copy and conversion actions make are named by `Templates.Effect`,
and a parameter `fs` gives the file system's answer to each.

Modules, in dependency order: `Common` (bytes, options, errors, pattern
occurrence), `Replace`, `Binary`, `Content` (`transform`, the line-ending
conversion and the binary/text gate), `Names`, `ExistingFiles`, `Walk`,
`Templates`.

## Model

| member | source | states |
|---|---|---|
| Binary.WindowLength | pkg/workspace/templates.go:417-422 | The number of inspected bytes is the input length capped at 8000: never more than either, and equal to one of them. |
| Binary.IsBinaryScan | pkg/workspace/templates.go:416-431 | The clamped scan that stops at the first zero byte answers true exactly when some byte below min(len, 8000) is zero. |
| Binary.OnlyWindowMatters | pkg/workspace/templates.go:416-431 | Two inputs that agree on their inspected bytes get the same verdict, so bytes from index 8000 on never matter. |
| Binary.AppendPastWindow | pkg/workspace/templates.go:416-431 | Appending anything to input of at least 8000 bytes leaves the verdict unchanged. |
| Binary.NoZeroIsText | pkg/workspace/templates.go:416-431 | Input without a zero byte, including empty input, is text. |
| Replace.IndexFrom | pkg/workspace/templates.go:389-390 | The search for the next match returns the first index at or after the start where the pattern occurs, and None only when there is none. |
| Replace.ReplaceScan | pkg/workspace/templates.go:389-390 | Go's replacement loop (find the next match, copy what is before it, emit the replacement, resume after the match) yields exactly the leftmost non-overlapping replacement of the reference definition. |
| Replace.ScanOnce | pkg/workspace/templates.go:389-390 | One round finds no match exactly when none is left at or after the start, and then emits the rest of the text. Otherwise it emits the text up to the first match plus the replacement and resumes right after that match, in step with the reference definition. |
| Replace.ReplaceNoMatch | pkg/workspace/templates.go:389-390 | Text with no occurrence of the pattern comes back unchanged. |
| Replace.ReplaceUpToMatch | pkg/workspace/templates.go:389-390 | Up to the first match the text is copied, the match becomes the replacement, and scanning resumes right after the match. |
| Replace.ReplaceAhead | pkg/workspace/templates.go:389-390 | The result from a position depends only on the text from that position on. |
| Replace.ReplaceAfterPrefix | pkg/workspace/templates.go:389-390 | Text placed in front of the scan position does not change what the rest becomes. |
| Replace.ReplaceWithItself | pkg/workspace/templates.go:389-390 | Replacing a pattern by itself changes nothing, because inserted text is never rescanned. |
| Replace.ReplaceLength | pkg/workspace/templates.go:389-390 | The result's length is the input's plus, for every replaced match, the length difference between replacement and pattern. |
| Replace.ReplaceSingle | pkg/workspace/templates.go:453 | With a one-byte pattern, replacement is per-byte substitution: each `\n` becomes the replacement and every other byte stays. |
| Content.TransformWithoutPlaceholders | pkg/workspace/templates.go:388-392 | Content that contains neither `${PROJECT}` nor `${DESCRIPTION}` is returned unchanged by `transform`. |
| Content.ProjectNameIsTransformedToo | pkg/workspace/templates.go:389-390 | Because `${PROJECT}` is substituted first, a `${DESCRIPTION}` inside the project name is itself substituted. |
| Content.DescriptionInsideProjectName | pkg/workspace/templates.go:389-390 | With project name `${DESCRIPTION}`, a lone `${PROJECT}` becomes the description. |
| Content.CopyWithoutPlaceholders | pkg/workspace/templates.go:193-197 | A file without placeholders is written back byte for byte, whether binary or text. |
| Content.ToCRLFPerByte | pkg/workspace/templates.go:453 | The line-ending conversion puts a `\r` before every `\n` and keeps every other byte. |
| Content.ExistingCRLFGetsSecondCR | pkg/workspace/templates.go:453 | A `\r\n` already present is not left alone: it becomes `\r\r\n`. |
| Content.UndoCRLF | pkg/workspace/templates.go:453 | Replacing each `\r\n` by `\n` in the converted text gives back the original, even when the original already held `\r\n`. |
| Content.ConversionKeepsVerdict | pkg/workspace/templates.go:450-455 | What the conversion writes is binary exactly when the original is, because inserting `\r` never moves a zero byte into the first 8000. |
| Content.ConversionRoundTrip | pkg/workspace/templates.go:450-455 | The original file can be recovered from the written bytes alone, for binary and text files alike. |
| Names.RuneBytes | pkg/workspace/templates.go:259 | `string(name[i])` keeps an ASCII byte and turns a byte from 0x80 up into a two-byte UTF-8 sequence that decodes back to the byte's value. |
| Names.BuildUp | pkg/workspace/templates.go:256-263 | Whatever the build-up holds after any number of rounds is empty or passes the validity test. |
| Names.ValidProjectName | pkg/workspace/templates.go:250-271 | A valid name is returned unchanged. For an invalid one, the result is "project" exactly when no single byte of the name, as a rune, is valid on its own; otherwise it is valid and is the UTF-8 encoding of a non-empty subsequence of the name. The result is empty exactly when the name is empty and the empty name counts as valid. |
| Names.GetValidProjectName | pkg/workspace/templates.go:250-271 | The loop as written computes the sanitised name. |
| Names.BuildUpKeepsSubsequence | pkg/workspace/templates.go:258-263 | For ASCII input, the built-up name is a subsequence of the bytes read so far. |
| Names.SanitizedAsciiNameIsSubsequence | pkg/workspace/templates.go:256-270 | For an invalid ASCII name, a result other than "project" is a subsequence of the name, so it is no longer than the name. |
| Names.BuildUpEncodesKept | pkg/workspace/templates.go:258-263 | The built-up name is the UTF-8 encoding of the bytes kept so far, and those bytes are a subsequence of the input. |
| Names.SanitizedNameIsEncodedSubsequence | pkg/workspace/templates.go:256-270 | For any invalid name, a result other than "project" is the UTF-8 encoding of a subsequence of the name's bytes. |
| Names.BuildUpIsEncoding | pkg/workspace/templates.go:258-263 | The built-up name is the UTF-8 encoding of the bytes kept so far. |
| Names.KeptIsSubsequence | pkg/workspace/templates.go:258-263 | The bytes kept so far are a subsequence of the bytes read. |
| Names.BuildUpEmptyExactly | pkg/workspace/templates.go:256-263 | The build-up is still empty after some rounds exactly when none of the bytes read so far is valid on its own. |
| Names.BuildUpLength | pkg/workspace/templates.go:258-263 | Each input byte adds at most two bytes to the built-up name. |
| Names.ValueOrSanitizedDefaultProjectName | pkg/workspace/templates.go:231-236 | A given name is used as is. Without one, a valid default is used unchanged, and an invalid one gives "project" exactly when no single byte of it is valid on its own, and otherwise a valid name that is the UTF-8 encoding of a non-empty subsequence of the default's bytes; the result is always "project" or valid. It is empty exactly when no name is given, the default is empty and the empty name counts as valid. |
| Names.ValueOrDefaultProjectDescription | pkg/workspace/templates.go:239-247 | A given description is used as is, and otherwise the default. The result is empty exactly when both are empty. |
| ExistingFiles.NewExistingFilesError | pkg/workspace/templates.go:376-384 | For a non-empty list, the message built by the loop is the header, one `  overwrite   <file>` line per file in list order, and the `--force` hint. |
| ExistingFiles.ParseLinesRoundTrip | pkg/workspace/templates.go:379-381 | The overwrite lines can be read back into the list of file names, in order, when no name contains a newline. |
| ExistingFiles.MessageRoundTrip | pkg/workspace/templates.go:376-384 | The whole message names exactly the given files, in order. |
| Walk.ListingMirrors | pkg/workspace/templates.go:330-347 | No visit is of a non-directory entry (a `File` node) named `.pulumi.template.yaml`. Every dest path is the source path with the source root swapped for the dest root, and it ends in the entry's name. |
| Walk.ListingParentsFirst | pkg/workspace/templates.go:335-342 | A directory's visit comes before the visit of anything inside it. |
| Walk.ListingComplete | pkg/workspace/templates.go:330-352 | Every entry of a walked directory is visited except a non-directory entry (a `File` node) named like the manifest; a directory with that name is visited. |
| Walk.WalkFollowsListing | pkg/workspace/templates.go:330-355 | The visits made are a prefix of the full pre-order listing, and all of it when the walk returns no error. |
| Walk.WalkStopsAtFirstError | pkg/workspace/templates.go:326-355 | Every visit but the last succeeded: its action returned no error and, for a directory, the listing did not fail, so a failed subdirectory listing ends the walk. Without an error, all visits succeeded. An error is the last action's, or the listing failure of the last directory visited. |
| Walk.WalkEndsAtUnreadable | pkg/workspace/templates.go:326-342 | A directory whose listing fails is the last entry visited, and the walk returns an error. |
| Walk.WalkFilesContract | pkg/workspace/templates.go:319-356 | For a template root: the visits are a well-ordered prefix of the listing, the walk stops at the first error, and a root that cannot be listed yields that error with no visits. |
| Templates.CopyTemplateFilesEffects | pkg/workspace/templates.go:180-207 | Each visited directory is made at its mirrored dest path. Each file is written there with its own bytes when binary and the substituted text otherwise. The manifest is never copied, and on success every entry was handled. |
| Templates.CopyStopsOnExistingFile | pkg/workspace/templates.go:199-206 | A write that finds the file already present returns the overwrite error built for just that file's base name, whatever the name; when the name has no newline, the message reads back as that one name. |
| Templates.DryRunReportsExistingFiles | pkg/workspace/templates.go:147-169 | The dry run succeeds exactly when the template lists without error and no dest path is an existing file. A listing error is returned as is. Any other failure is the overwrite error, and when no base name contains a newline that error names every existing file, in walk order. |
| Templates.FixWindowsLineEndingsInPlace | pkg/workspace/templates.go:436-467 | Every visited file is rewritten at its own path. A binary file gets its own bytes, a text file gets a `\r` before every `\n`, and the original can be recovered from what is written. |

## Left out

- Tarball extraction (`extractTarball`, `InstallTemplate`), `GetTemplateDir`, `LoadLocalTemplate`, `ListLocalTemplates`, the `runtime.GOOS` switch and the YAML manifest reader. These are file-system and foreign-library plumbing, so their errors are also absent from the copy, dry run and conversion.
- `writeAllBytes` and `os.Mkdir` appear only as the `Effect` each asks for (`WriteFile`, `MakeDir`), and the file system's answer is the parameter `fs`. `os.Stat` in the dry run is the parameter `existsAsFile`. `ioutil.ReadFile` is the `content` a `File` node carries, so read errors are not modelled.
- `ioutil.ReadDir` sorts entries by name. The model takes a directory's children to be in listing order already.
- `filepath.Join`, `filepath.Clean` and separators. A path is a sequence of components, and joining appends one. `filepath.Base` is the last component.
- `tokens.IsPackageName` is a parameter, and `IsValidProjectName` is that parameter. Its character rules are not part of this model.
- `strings.Replace` with an empty pattern. Every call in the template code passes a non-empty literal, so `Replace` requires a non-empty pattern.
- The `contract.Require` and `contract.Assert` panics of `walkFiles` and `newExistingFilesError` are preconditions, not panics.
- A template root that is a regular file. `WalkFiles` requires a directory (or an unreadable one), because `LoadLocalTemplate` rejects templates that are not directories.
- Names.ValidProjectName: the result is empty exactly when the name is empty and the empty name is valid (names.dfy). The source's promise that the result is never empty depends on `tokens.IsPackageName("")` being false, which is not part of this model.

=== FILE: binary.dfy ===
/** git's rule for telling binary files from text files, as `isBinary` in
    pkg/workspace/templates.go applies it: a file is binary when a zero byte
    occurs among its first 8000 bytes. */
module Binary {
  import opened Common

  const FirstFewBytes: nat := 8000

  /** How many leading bytes the rule inspects. */
  function WindowLength(b: Bytes): (n: nat)
    ensures n <= |b| && n <= FirstFewBytes
    ensures n == |b| || n == FirstFewBytes
  {
    if FirstFewBytes < |b| then FirstFewBytes else |b|
  }

  /** Reference definition: some inspected byte is zero. */
  predicate IsBinary(b: Bytes)
  {
    exists i | 0 <= i < WindowLength(b) :: b[i] == NUL
  }

  /** The scan `isBinary` performs: clamp the length to 8000 and stop at the
      first zero byte. */
  method IsBinaryScan(b: Bytes) returns (r: bool)
    ensures r <==> IsBinary(b)
  {
    var length := |b|;
    if FirstFewBytes < length {
      length := FirstFewBytes;
    }
    var i := 0;
    while i < length
      invariant length == WindowLength(b)
      invariant i <= length
      invariant forall j :: 0 <= j < i ==> b[j] != NUL
    {
      if b[i] == NUL {
        return true;
      }
      i := i + 1;
    }
    return false;
  }

  /** Bytes past the first 8000 never change the verdict: two inputs that
      agree on their inspected bytes are classified alike. */
  lemma OnlyWindowMatters(b: Bytes, c: Bytes)
    requires WindowLength(b) == WindowLength(c)
    requires b[..WindowLength(b)] == c[..WindowLength(c)]
    ensures IsBinary(b) <==> IsBinary(c)
  {
    var n := WindowLength(b);
    forall i | 0 <= i < n
      ensures b[i] == c[i]
    {
      assert b[i] == b[..n][i];
      assert c[i] == c[..n][i];
    }
  }

  /** Appending anything to input of at least 8000 bytes keeps its verdict. */
  lemma AppendPastWindow(b: Bytes, tail: Bytes)
    requires |b| >= FirstFewBytes
    ensures IsBinary(b + tail) <==> IsBinary(b)
  {
    assert (b + tail)[..FirstFewBytes] == b[..FirstFewBytes];
    OnlyWindowMatters(b + tail, b);
  }

  /** Empty input is text; input without zero bytes is text. */
  lemma NoZeroIsText(b: Bytes)
    requires forall i :: 0 <= i < |b| ==> b[i] != NUL
    ensures !IsBinary(b)
  {
  }
}

=== FILE: common.dfy ===
/** Byte strings and the small result types shared by the template model.
    A Go `string` is an immutable sequence of bytes, and `string(b)` /
    `[]byte(s)` convert between the two without changing a byte, so every
    Go string of the template code is modelled as `Bytes`. */
module Common {

  newtype uint8 = x: int | 0 <= x < 0x100

  type Bytes = seq<uint8>

  /** The bytes of a string literal written in the source. Every literal the
      template code uses is ASCII, so each character is one byte. */
  function Lit(s: string): (r: Bytes)
    ensures |r| == |s|
    ensures forall i :: 0 <= i < |s| && s[i] as int < 0x100 ==> r[i] as int == s[i] as int
  {
    seq(|s|, i requires 0 <= i < |s| => (s[i] as int % 0x100) as uint8)
  }

  const NUL: uint8 := 0
  const LF: uint8 := 0x0A
  const CR: uint8 := 0x0D

  datatype Option<+T> = None | Some(value: T)

  /** The errors the modelled code can return. `Io` stands for any error a
      file-system call reports; its payload is opaque. */
  datatype Error =
    | Io(code: nat)
    | ExistingFiles(message: Bytes)

  /** `a` occurs in `s` starting at index `i`. */
  predicate OccursAt<T(==)>(s: seq<T>, a: seq<T>, i: nat)
  {
    i + |a| <= |s| && s[i..i + |a|] == a
  }

  /** `a` occurs somewhere in `s`. */
  predicate Contains<T(==)>(s: seq<T>, a: seq<T>)
  {
    exists i: nat | i <= |s| :: OccursAt(s, a, i)
  }

  /** A sequence that does not contain `a` has no occurrence of it anywhere. */
  lemma NotContained<T>(s: seq<T>, pat: seq<T>)
    requires !Contains(s, pat)
    ensures forall j :: 0 <= j ==> !OccursAt(s, pat, j)
  {
    forall j | 0 <= j
      ensures !OccursAt(s, pat, j)
    {
      if j <= |s| {
        assert OccursAt(s, pat, j) ==> Contains(s, pat);
      }
    }
  }
}

=== FILE: content.dfy ===
/** What the template code writes for a file: the placeholder substitution
    `transform`, the `\n` to `\r\n` conversion of `fixWindowsLineEndings`,
    and the gate that copies binary files byte for byte. */
module Content {
  import opened Common
  import opened Replace
  import opened Binary

  const ProjectPlaceholder: Bytes := Lit("${PROJECT}")
  const DescriptionPlaceholder: Bytes := Lit("${DESCRIPTION}")
  const CRLF: Bytes := [CR, LF]

  /** `transform`: every `${PROJECT}` becomes the project name, then every
      `${DESCRIPTION}` of the result becomes the description. */
  function Transform(content: Bytes, projectName: Bytes, projectDescription: Bytes): Bytes
  {
    ReplaceAll(ReplaceAll(content, ProjectPlaceholder, projectName),
               DescriptionPlaceholder, projectDescription)
  }

  /** The conversion `fixWindowsLineEndings` applies to a text file. */
  function ToCRLF(b: Bytes): Bytes
  {
    ReplaceAll(b, [LF], CRLF)
  }

  /** What `CopyTemplateFiles` writes for a file whose bytes are `b`. */
  function CopiedContent(b: Bytes, projectName: Bytes, projectDescription: Bytes): Bytes
  {
    if IsBinary(b) then b else Transform(b, projectName, projectDescription)
  }

  /** What `fixWindowsLineEndings` writes back for a file whose bytes are `b`. */
  function ConvertedContent(b: Bytes): Bytes
  {
    if IsBinary(b) then b else ToCRLF(b)
  }

  /** Undoes `ConvertedContent`, deciding from the converted bytes alone. */
  function RestoredContent(b: Bytes): Bytes
  {
    if IsBinary(b) then b else ReplaceAll(b, CRLF, [LF])
  }

  /** Content that contains neither placeholder is not changed by
      `transform`. */
  lemma TransformWithoutPlaceholders(b: Bytes, projectName: Bytes, projectDescription: Bytes)
    requires !Contains(b, ProjectPlaceholder) && !Contains(b, DescriptionPlaceholder)
    ensures Transform(b, projectName, projectDescription) == b
  {
    NotContained(b, ProjectPlaceholder);
    NotContained(b, DescriptionPlaceholder);
    ReplaceNoMatch(b, ProjectPlaceholder, projectName, 0);
    ReplaceNoMatch(b, DescriptionPlaceholder, projectDescription, 0);
  }

  /** Content that contains neither placeholder is copied unchanged, text or
      binary. */
  lemma CopyWithoutPlaceholders(b: Bytes, projectName: Bytes, projectDescription: Bytes)
    requires !Contains(b, ProjectPlaceholder) && !Contains(b, DescriptionPlaceholder)
    ensures CopiedContent(b, projectName, projectDescription) == b
  {
    TransformWithoutPlaceholders(b, projectName, projectDescription);
  }

  /** The project placeholder is substituted first, so description
      placeholders inside the project name are filled in as well. */
  lemma ProjectNameIsTransformedToo(projectName: Bytes, projectDescription: Bytes)
    ensures Transform(ProjectPlaceholder, projectName, projectDescription)
         == ReplaceAll(projectName, DescriptionPlaceholder, projectDescription)
  {
    ReplaceWhole(ProjectPlaceholder, projectName);
  }

  /** The concrete instance: a project named `${DESCRIPTION}` turns a lone
      `${PROJECT}` into the description. */
  lemma DescriptionInsideProjectName(projectDescription: Bytes)
    ensures Transform(ProjectPlaceholder, DescriptionPlaceholder, projectDescription)
         == projectDescription
  {
    ProjectNameIsTransformedToo(DescriptionPlaceholder, projectDescription);
    ReplaceWhole(DescriptionPlaceholder, projectDescription);
  }

  /** `\n` to `\r\n` is a per-byte substitution. */
  lemma ToCRLFPerByte(b: Bytes)
    ensures ToCRLF(b) == SubstituteEach(b, LF, CRLF)
  {
    ReplaceSingle(b, LF, CRLF, 0);
  }

  /** Every `\n` gets a `\r` in front, including one that already had one:
      a `\r\n` in a template becomes `\r\r\n`. */
  lemma ExistingCRLFGetsSecondCR()
    ensures ToCRLF(CRLF) == [CR, CR, LF]
  {
    ToCRLFPerByte(CRLF);
    assert SubstituteEach([LF], LF, CRLF) == CRLF + SubstituteEach([LF][1..], LF, CRLF);
    assert SubstituteEach(CRLF, LF, CRLF) == [CR] + SubstituteEach(CRLF[1..], LF, CRLF);
    assert CRLF[1..] == [LF] && [LF][1..] == [];
  }

  lemma SubstituteFirst(b: Bytes)
    requires b != []
    ensures SubstituteEach(b, LF, CRLF) != []
    ensures SubstituteEach(b, LF, CRLF)[0] != LF
  {
  }

  /** Replacing each `\r\n` by `\n` undoes the conversion, even where the
      text already held `\r\n`: every `\n` of the converted text is preceded
      by an inserted `\r`, and the matches cannot overlap. */
  lemma {:induction false} UndoCRLF(b: Bytes)
    ensures ReplaceAll(SubstituteEach(b, LF, CRLF), CRLF, [LF]) == b
    decreases |b|
  {
    if b != [] {
      var f := SubstituteEach(b, LF, CRLF);
      var g := SubstituteEach(b[1..], LF, CRLF);
      UndoCRLF(b[1..]);
      if b[0] == LF {
        assert f == CRLF + g;
        assert OccursAt(f, CRLF, 0);
        ReplaceAfterPrefix(CRLF, g, CRLF, [LF]);
        assert b == [LF] + b[1..];
      } else {
        assert f == [b[0]] + g;
        if |f| >= 2 {
          SubstituteFirst(b[1..]);
          assert f[1] == g[0];
        }
        assert !OccursAt(f, CRLF, 0);
        ReplaceSkip(f, CRLF, [LF], 0);
        ReplaceAfterPrefix([b[0]], g, CRLF, [LF]);
        assert b == [b[0]] + b[1..];
      }
    }
  }

  /** No zero byte among the first `n`. */
  predicate NoNulBefore(b: Bytes, n: nat)
  {
    forall i :: 0 <= i < n && i < |b| ==> b[i] != NUL
  }

  /** The conversion only inserts `\r`, which pushes bytes later and never
      pulls a zero byte forward. */
  lemma {:induction false} SubstituteKeepsNoNul(b: Bytes, n: nat)
    requires NoNulBefore(b, n)
    ensures NoNulBefore(SubstituteEach(b, LF, CRLF), n)
    decreases |b|
  {
    if b != [] && n > 0 {
      var h: Bytes := if b[0] == LF then CRLF else [b[0]];
      var g := SubstituteEach(b[1..], LF, CRLF);
      assert SubstituteEach(b, LF, CRLF) == h + g;
      assert NoNulBefore(b[1..], n - 1);
      SubstituteKeepsNoNul(b[1..], n - 1);
      forall i | 0 <= i < n && i < |h + g|
        ensures (h + g)[i] != NUL
      {
        if i >= |h| {
          assert (h + g)[i] == g[i - |h|];
        }
      }
    }
  }

  lemma TextIsNoNulBefore(b: Bytes)
    ensures !IsBinary(b) <==> NoNulBefore(b, FirstFewBytes)
  {
    if !IsBinary(b) {
      forall i | 0 <= i < FirstFewBytes && i < |b|
        ensures b[i] != NUL
      {
        assert i < WindowLength(b);
      }
    }
  }

  /** The conversion keeps the binary verdict: binary input is left alone,
      and converted text is still text. */
  lemma ConversionKeepsVerdict(b: Bytes)
    ensures IsBinary(ConvertedContent(b)) <==> IsBinary(b)
  {
    if !IsBinary(b) {
      TextIsNoNulBefore(b);
      SubstituteKeepsNoNul(b, FirstFewBytes);
      ToCRLFPerByte(b);
      TextIsNoNulBefore(ToCRLF(b));
    }
  }

  /** Round trip: the original bytes can be recovered from the converted
      bytes alone. */
  lemma ConversionRoundTrip(b: Bytes)
    ensures RestoredContent(ConvertedContent(b)) == b
  {
    ConversionKeepsVerdict(b);
    if !IsBinary(b) {
      ToCRLFPerByte(b);
      UndoCRLF(b);
    }
  }
}

=== FILE: existing_files.dfy ===
/** The error `newExistingFilesError` builds when creating a template would
    overwrite files: a fixed header, one line per file, a fixed hint. */
module ExistingFiles {
  import opened Common
  import opened Replace

  const Header: Bytes := Lit("creating this template will make changes to existing files:\n")
  const LinePrefix: Bytes := Lit("  overwrite   ")
  const Hint: Bytes := Lit("\nrerun the command and pass --force to accept and create")

  /** The line `fmt.Sprintf("  overwrite   %s\n", file)` produces. */
  function OverwriteLine(file: Bytes): Bytes
  {
    LinePrefix + file + [LF]
  }

  /** One overwrite line per file, in list order. */
  function OverwriteLines(files: seq<Bytes>): Bytes
  {
    if files == [] then [] else OverwriteLine(files[0]) + OverwriteLines(files[1..])
  }

  /** The full message for a non-empty list of files. */
  function ExistingFilesMessage(files: seq<Bytes>): Bytes
    requires |files| > 0
  {
    Header + OverwriteLines(files) + Hint
  }

  lemma {:induction false} OverwriteLinesAppend(files: seq<Bytes>, file: Bytes)
    ensures OverwriteLines(files + [file]) == OverwriteLines(files) + OverwriteLine(file)
    decreases |files|
  {
    if files != [] {
      assert (files + [file])[1..] == files[1..] + [file];
      OverwriteLinesAppend(files[1..], file);
    } else {
      assert OverwriteLines([file]) == OverwriteLine(file) + OverwriteLines([]);
    }
  }

  /** `newExistingFilesError` as written: the header, then a line per file
      appended in a loop, then the hint. The source asserts the list is
      non-empty. */
  method NewExistingFilesError(existing: seq<Bytes>) returns (e: Error)
    requires |existing| > 0
    ensures e == ExistingFiles(ExistingFilesMessage(existing))
  {
    var message := Header;
    var i := 0;
    while i < |existing|
      invariant i <= |existing|
      invariant message == Header + OverwriteLines(existing[..i])
    {
      OverwriteLinesAppend(existing[..i], existing[i]);
      assert existing[..i + 1] == existing[..i] + [existing[i]];
      message := message + OverwriteLine(existing[i]);
      i := i + 1;
    }
    assert existing[..i] == existing;
    message := message + Hint;
    return ExistingFiles(message);
  }

  /** Reads the file names back from the overwrite lines. */
  function ParseLines(body: Bytes): Option<seq<Bytes>>
    decreases |body|
  {
    if body == [] then Some([])
    else if |body| < |LinePrefix| || body[..|LinePrefix|] != LinePrefix then None
    else match IndexFrom(body, [LF], |LinePrefix|)
      case None => None
      case Some(k) =>
        match ParseLines(body[k + 1..])
        case None => None
        case Some(rest) => Some([body[|LinePrefix|..k]] + rest)
  }

  /** Reads the file names back from a whole message. */
  function ParseExistingFilesMessage(message: Bytes): Option<seq<Bytes>>
  {
    if |message| < |Header| + |Hint| then None
    else if message[..|Header|] != Header || message[|message| - |Hint|..] != Hint then None
    else ParseLines(message[|Header|..|message| - |Hint|])
  }

  predicate NoNewline(file: Bytes)
  {
    forall i :: 0 <= i < |file| ==> file[i] != LF
  }

  lemma FirstNewline(file: Bytes, rest: Bytes)
    requires NoNewline(file)
    ensures var line := OverwriteLine(file) + rest;
      IndexFrom(line, [LF], |LinePrefix|) == Some(|LinePrefix| + |file|)
  {
    var line := OverwriteLine(file) + rest;
    var k := |LinePrefix| + |file|;
    assert line[k] == LF;
    assert OccursAt(line, [LF], k);
    forall j | |LinePrefix| <= j < k
      ensures !OccursAt(line, [LF], j)
    {
      assert line[j] == file[j - |LinePrefix|];
      assert line[j..j + 1] == [line[j]];
    }
  }

  lemma {:induction false} ParseLinesRoundTrip(files: seq<Bytes>)
    requires forall i :: 0 <= i < |files| ==> NoNewline(files[i])
    ensures ParseLines(OverwriteLines(files)) == Some(files)
    decreases |files|
  {
    if files != [] {
      var file := files[0];
      var rest := OverwriteLines(files[1..]);
      var body := OverwriteLine(file) + rest;
      assert OverwriteLines(files) == body;
      var k := |LinePrefix| + |file|;
      FirstNewline(file, rest);
      assert body[..|LinePrefix|] == LinePrefix;
      assert body[|LinePrefix|..k] == file;
      assert body[k + 1..] == rest;
      ParseLinesRoundTrip(files[1..]);
      assert [file] + files[1..] == files;
    }
  }

  /** Round trip: the message names exactly the given files, in order, as
      long as no file name contains a newline. */
  lemma MessageRoundTrip(files: seq<Bytes>)
    requires |files| > 0
    requires forall i :: 0 <= i < |files| ==> NoNewline(files[i])
    ensures ParseExistingFilesMessage(ExistingFilesMessage(files)) == Some(files)
  {
    var body := OverwriteLines(files);
    var m := ExistingFilesMessage(files);
    assert m[..|Header|] == Header;
    assert m[|m| - |Hint|..] == Hint;
    assert m[|Header|..|m| - |Hint|] == body;
    ParseLinesRoundTrip(files);
  }
}

=== FILE: names.dfy ===
/** Project names: the sanitiser `getValidProjectName` and the defaulting
    helpers `ValueOrSanitizedDefaultProjectName` and
    `ValueOrDefaultProjectDescription`. The validity test (`tokens.IsPackageName`)
    is not part of this model; every operation takes it as the parameter
    `valid`, and nothing is assumed about which names it accepts. */
module Names {
  import opened Common

  const DefaultProjectName: Bytes := Lit("project")

  /** Go's `string(name[i])`: the byte is taken as a code point and encoded
      as UTF-8, so bytes from 0x80 up become two bytes. */
  function RuneBytes(b: uint8): (r: Bytes)
    ensures b < 0x80 ==> r == [b]
    ensures b >= 0x80 ==> |r| == 2 && r[0] >= 0xC0 && 0x80 <= r[1] < 0xC0
    ensures b >= 0x80 ==> (r[0] as int - 0xC0) * 64 + (r[1] as int - 0x80) == b as int
  {
    if b < 0x80 then [b]
    else [(0xC0 + b as int / 64) as uint8, (0x80 + b as int % 64) as uint8]
  }

  /** The build-up loop after its first `n` rounds: each byte is appended
      (as a rune) when the longer name is still valid, and dropped otherwise. */
  function BuildUp(name: Bytes, n: nat, valid: Bytes -> bool): (r: Bytes)
    requires n <= |name|
    ensures r == [] || valid(r)
  {
    if n == 0 then []
    else
      var acc := BuildUp(name, n - 1, valid);
      var temp := acc + RuneBytes(name[n - 1]);
      if valid(temp) then temp else acc
  }

  /** Some byte of `name`, taken as a rune, is a valid name on its own. */
  predicate SomeRuneFits(name: Bytes, valid: Bytes -> bool)
  {
    exists i :: 0 <= i < |name| && valid(RuneBytes(name[i]))
  }

  /** `getValidProjectName`: a valid name is kept; otherwise the build-up
      result, or "project" when nothing could be kept. The build-up keeps
      something exactly when some single byte of the name fits. */
  function ValidProjectName(name: Bytes, valid: Bytes -> bool): (r: Bytes)
    ensures valid(name) ==> r == name
    ensures !valid(name) ==> r == DefaultProjectName || (valid(r) && r != [])
    ensures !valid(name) && SomeRuneFits(name, valid) ==>
              valid(r) && exists kept :: kept != [] && Subsequence(kept, name) && r == EncodeRunes(kept)
    ensures !valid(name) && !SomeRuneFits(name, valid) ==> r == DefaultProjectName
    ensures r == [] <==> name == [] && valid([])
  {
    if valid(name) then name
    else
      var built := BuildUp(name, |name|, valid);
      BuildUpEmptyExactly(name, |name|, valid);
      BuildUpEncodesKept(name, |name|, valid);
      assert name[..|name|] == name;
      if built == [] then DefaultProjectName else built
  }

  /** The build-up stays empty exactly as long as no byte read so far fits
      on its own: while it is empty, each round tries that byte alone, and
      once something is kept it only grows. */
  lemma {:induction false} BuildUpEmptyExactly(name: Bytes, n: nat, valid: Bytes -> bool)
    requires n <= |name|
    ensures BuildUp(name, n, valid) == [] <==> forall i :: 0 <= i < n ==> !valid(RuneBytes(name[i]))
    decreases n
  {
    if n > 0 {
      BuildUpEmptyExactly(name, n - 1, valid);
      var acc := BuildUp(name, n - 1, valid);
      var rune := RuneBytes(name[n - 1]);
      if acc == [] {
        assert acc + rune == rune;
      }
    }
  }

  /** The loop of `getValidProjectName` as written. */
  method GetValidProjectName(name: Bytes, valid: Bytes -> bool) returns (result: Bytes)
    ensures result == ValidProjectName(name, valid)
  {
    if valid(name) {
      return name;
    }
    result := [];
    var i := 0;
    while i < |name|
      invariant i <= |name|
      invariant result == BuildUp(name, i, valid)
    {
      var temp := result + RuneBytes(name[i]);
      if valid(temp) {
        result := temp;
      }
      i := i + 1;
    }
    if result == [] {
      result := DefaultProjectName;
    }
  }

  /** `a` can be obtained from `b` by deleting elements. */
  predicate Subsequence<T(==)>(a: seq<T>, b: seq<T>)
    decreases |b|
  {
    if a == [] then true
    else if b == [] then false
    else if a[|a| - 1] == b[|b| - 1] then Subsequence(a[..|a| - 1], b[..|b| - 1])
    else Subsequence(a, b[..|b| - 1])
  }

  /** A subsequence stays one when the longer sequence grows. */
  lemma {:induction false} SubsequenceExtend<T>(a: seq<T>, b: seq<T>, x: T)
    requires Subsequence(a, b)
    ensures Subsequence(a, b + [x])
    decreases |b|, 1
  {
    assert (b + [x])[..|b|] == b;
    if a != [] && a[|a| - 1] == x {
      SubsequenceDropLast(a, b);
    }
  }

  /** Dropping the last element of a subsequence leaves a subsequence. */
  lemma {:induction false} SubsequenceDropLast<T>(a: seq<T>, b: seq<T>)
    requires a != [] && Subsequence(a, b)
    ensures Subsequence(a[..|a| - 1], b)
    decreases |b|, 0
  {
    var a' := a[..|a| - 1];
    var b' := b[..|b| - 1];
    assert b' + [b[|b| - 1]] == b;
    if a[|a| - 1] != b[|b| - 1] {
      SubsequenceDropLast(a, b');
    }
    SubsequenceExtend(a', b', b[|b| - 1]);
  }

  /** All bytes are ASCII, so each is its own rune. */
  predicate IsAscii(name: Bytes)
  {
    forall i :: 0 <= i < |name| ==> name[i] < 0x80
  }

  /** For an ASCII name the build-up keeps a subsequence of the name. */
  lemma {:induction false} BuildUpKeepsSubsequence(name: Bytes, n: nat, valid: Bytes -> bool)
    requires n <= |name| && IsAscii(name)
    ensures Subsequence(BuildUp(name, n, valid), name[..n])
    decreases n
  {
    if n > 0 {
      var acc := BuildUp(name, n - 1, valid);
      BuildUpKeepsSubsequence(name, n - 1, valid);
      assert name[..n] == name[..n - 1] + [name[n - 1]];
      assert RuneBytes(name[n - 1]) == [name[n - 1]];
      var temp := acc + [name[n - 1]];
      if valid(temp) {
        assert BuildUp(name, n, valid) == temp;
        SubsequenceAppendBoth(acc, name[..n - 1], name[n - 1]);
      } else {
        SubsequenceExtend(acc, name[..n - 1], name[n - 1]);
      }
    }
  }

  lemma {:induction false} SubsequenceLength<T>(a: seq<T>, b: seq<T>)
    requires Subsequence(a, b)
    ensures |a| <= |b|
    decreases |b|
  {
    if a != [] {
      if a[|a| - 1] == b[|b| - 1] {
        SubsequenceLength(a[..|a| - 1], b[..|b| - 1]);
      } else {
        SubsequenceLength(a, b[..|b| - 1]);
      }
    }
  }

  /** For an invalid ASCII name, a result other than the fallback is a
      subsequence of the name and so no longer than it. */
  lemma SanitizedAsciiNameIsSubsequence(name: Bytes, valid: Bytes -> bool)
    requires IsAscii(name) && !valid(name)
    ensures var r := ValidProjectName(name, valid);
      r == DefaultProjectName || (Subsequence(r, name) && |r| <= |name|)
  {
    BuildUpKeepsSubsequence(name, |name|, valid);
    assert name[..|name|] == name;
    SubsequenceLength(BuildUp(name, |name|, valid), name);
  }

  /** The UTF-8 encoding of a byte sequence, each byte taken as a code point. */
  function EncodeRunes(bs: Bytes): Bytes
  {
    if bs == [] then [] else EncodeRunes(bs[..|bs| - 1]) + RuneBytes(bs[|bs| - 1])
  }

  /** The bytes of `name` the build-up has kept after `n` rounds. */
  ghost function KeptBytes(name: Bytes, n: nat, valid: Bytes -> bool): Bytes
    requires n <= |name|
  {
    if n == 0 then []
    else
      var kept := KeptBytes(name, n - 1, valid);
      if valid(BuildUp(name, n - 1, valid) + RuneBytes(name[n - 1]))
      then kept + [name[n - 1]] else kept
  }

  /** The built-up name is the encoding of the kept bytes. */
  lemma {:induction false} BuildUpIsEncoding(name: Bytes, n: nat, valid: Bytes -> bool)
    requires n <= |name|
    ensures BuildUp(name, n, valid) == EncodeRunes(KeptBytes(name, n, valid))
    decreases n
  {
    if n > 0 {
      var kept := KeptBytes(name, n - 1, valid);
      var acc := BuildUp(name, n - 1, valid);
      var x := name[n - 1];
      BuildUpIsEncoding(name, n - 1, valid);
      if valid(acc + RuneBytes(x)) {
        assert KeptBytes(name, n, valid) == kept + [x];
        assert BuildUp(name, n, valid) == acc + RuneBytes(x);
        EncodeAppend(kept, x);
      } else {
        assert KeptBytes(name, n, valid) == kept;
        assert BuildUp(name, n, valid) == acc;
      }
    }
  }

  /** Encoding one more byte appends its rune. */
  lemma EncodeAppend(bs: Bytes, x: uint8)
    ensures EncodeRunes(bs + [x]) == EncodeRunes(bs) + RuneBytes(x)
  {
    assert (bs + [x])[..|bs|] == bs;
  }

  /** The kept bytes are a subsequence of the bytes read. */
  lemma {:induction false} KeptIsSubsequence(name: Bytes, n: nat, valid: Bytes -> bool)
    requires n <= |name|
    ensures Subsequence(KeptBytes(name, n, valid), name[..n])
    decreases n
  {
    if n > 0 {
      var kept := KeptBytes(name, n - 1, valid);
      var x := name[n - 1];
      KeptIsSubsequence(name, n - 1, valid);
      assert name[..n] == name[..n - 1] + [x];
      if valid(BuildUp(name, n - 1, valid) + RuneBytes(x)) {
        assert KeptBytes(name, n, valid) == kept + [x];
        SubsequenceAppendBoth(kept, name[..n - 1], x);
      } else {
        assert KeptBytes(name, n, valid) == kept;
        SubsequenceExtend(kept, name[..n - 1], x);
      }
    }
  }

  /** Appending the same element to both sides keeps a subsequence. */
  lemma SubsequenceAppendBoth<T>(a: seq<T>, b: seq<T>, x: T)
    requires Subsequence(a, b)
    ensures Subsequence(a + [x], b + [x])
  {
    assert (a + [x])[..|a|] == a;
    assert (b + [x])[..|b|] == b;
  }

  /** The build-up after `n` rounds is the UTF-8 encoding of a subsequence
      of the first `n` bytes. */
  lemma {:induction false} BuildUpEncodesKept(name: Bytes, n: nat, valid: Bytes -> bool)
    requires n <= |name|
    ensures BuildUp(name, n, valid) == EncodeRunes(KeptBytes(name, n, valid))
    ensures Subsequence(KeptBytes(name, n, valid), name[..n])
  {
    BuildUpIsEncoding(name, n, valid);
    KeptIsSubsequence(name, n, valid);
  }

  /** For any invalid name, a result other than the fallback is the UTF-8
      encoding of a subsequence of the name's bytes, each byte read as a
      code point. */
  lemma SanitizedNameIsEncodedSubsequence(name: Bytes, valid: Bytes -> bool)
    requires !valid(name)
    ensures var r := ValidProjectName(name, valid);
      r == DefaultProjectName || exists kept :: Subsequence(kept, name) && r == EncodeRunes(kept)
  {
    BuildUpEncodesKept(name, |name|, valid);
    assert name[..|name|] == name;
  }

  /** Each byte contributes at most two bytes to the built-up name. */
  lemma {:induction false} BuildUpLength(name: Bytes, n: nat, valid: Bytes -> bool)
    requires n <= |name|
    ensures |BuildUp(name, n, valid)| <= 2 * n
    decreases n
  {
    if n > 0 {
      BuildUpLength(name, n - 1, valid);
    }
  }

  /** `ValueOrSanitizedDefaultProjectName`: a given name is used as is;
      without one, the default is sanitised: kept when valid, and otherwise
      "project" or the encoding of a subsequence of the default's bytes. */
  function ValueOrSanitizedDefaultProjectName(name: Bytes, defaultNameToSanitize: Bytes,
                                              valid: Bytes -> bool): (r: Bytes)
    ensures name != [] ==> r == name
    ensures name == [] ==> r == DefaultProjectName || valid(r)
    ensures name == [] && valid(defaultNameToSanitize) ==> r == defaultNameToSanitize
    ensures name == [] && !valid(defaultNameToSanitize) ==>
              r == DefaultProjectName ||
              exists kept :: Subsequence(kept, defaultNameToSanitize) && r == EncodeRunes(kept)
    ensures name == [] && !valid(defaultNameToSanitize) && SomeRuneFits(defaultNameToSanitize, valid) ==>
              valid(r) &&
              exists kept :: kept != [] && Subsequence(kept, defaultNameToSanitize) && r == EncodeRunes(kept)
    ensures name == [] && !valid(defaultNameToSanitize) && !SomeRuneFits(defaultNameToSanitize, valid) ==>
              r == DefaultProjectName
    ensures r == [] <==> name == [] && defaultNameToSanitize == [] && valid([])
  {
    if name != [] then name
    else
      var sanitized := ValidProjectName(defaultNameToSanitize, valid);
      // The subsequence clause for an invalid default needs this lemma.
      if !valid(defaultNameToSanitize) then
        SanitizedNameIsEncodedSubsequence(defaultNameToSanitize, valid);
        sanitized
      else sanitized
  }

  /** `ValueOrDefaultProjectDescription`: the description, else the default,
      which may itself be empty. */
  function ValueOrDefaultProjectDescription(description: Bytes, defaultDescription: Bytes): (r: Bytes)
    ensures description != [] ==> r == description
    ensures description == [] ==> r == defaultDescription
    ensures r == [] <==> description == [] && defaultDescription == []
  {
    if description != [] then description
    else if defaultDescription != [] then defaultDescription
    else []
  }
}

=== FILE: replace.dfy ===
/** Go's `strings.Replace(s, old, new, -1)`, which the template code uses for
    placeholder substitution and for line-ending conversion. The scan runs
    left to right, replaces the leftmost match, resumes right after it, and
    never looks at text it has just inserted. Only non-empty patterns are
    modelled: every call in the template code passes a non-empty literal. */
module Replace {
  import opened Common

  /** Reference definition: every non-overlapping, leftmost occurrence of
      `pat` in `s` is replaced by `rep`. */
  function ReplaceAll<T(==)>(s: seq<T>, pat: seq<T>, rep: seq<T>): seq<T>
    requires |pat| > 0
  {
    ReplaceFrom(s, pat, rep, 0)
  }

  /** `ReplaceAll` applied to the suffix `s[i..]`. */
  function ReplaceFrom<T(==)>(s: seq<T>, pat: seq<T>, rep: seq<T>, i: nat): seq<T>
    requires |pat| > 0 && i <= |s|
    decreases |s| - i
  {
    if |s| < i + |pat| then s[i..]
    else if OccursAt(s, pat, i) then rep + ReplaceFrom(s, pat, rep, i + |pat|)
    else [s[i]] + ReplaceFrom(s, pat, rep, i + 1)
  }

  /** The number of matches `ReplaceFrom` replaces (Go's `strings.Count`). */
  function CountFrom<T(==)>(s: seq<T>, pat: seq<T>, i: nat): nat
    requires |pat| > 0 && i <= |s|
    decreases |s| - i
  {
    if |s| < i + |pat| then 0
    else if OccursAt(s, pat, i) then 1 + CountFrom(s, pat, i + |pat|)
    else CountFrom(s, pat, i + 1)
  }

  /** The first index at or after `from` where `pat` occurs in `s`
      (Go's `strings.Index` applied to `s[from:]`, shifted by `from`). */
  function IndexFrom<T(==)>(s: seq<T>, pat: seq<T>, from: nat): (r: Option<nat>)
    requires |pat| > 0
    ensures r.Some? ==> from <= r.value && OccursAt(s, pat, r.value)
    ensures r.Some? ==> forall j :: from <= j < r.value ==> !OccursAt(s, pat, j)
    ensures r.None? ==> forall j :: from <= j ==> !OccursAt(s, pat, j)
    decreases |s| - from
  {
    if |s| < from + |pat| then None
    else if OccursAt(s, pat, from) then Some(from)
    else IndexFrom(s, pat, from + 1)
  }

  /** Go's replacement loop: find the next match from `start`, copy the text
      before it and then the replacement, resume after the match, and copy
      the rest once no match is left. */
  method ReplaceScan<T(==)>(s: seq<T>, pat: seq<T>, rep: seq<T>) returns (r: seq<T>)
    requires |pat| > 0
    ensures r == ReplaceAll(s, pat, rep)
  {
    r := [];
    var start := 0;
    while true
      invariant start <= |s|
      invariant r + ReplaceFrom(s, pat, rep, start) == ReplaceAll(s, pat, rep)
      decreases |s| - start
    {
      var piece, next := ScanOnce(s, pat, rep, start);
      if next.None? {
        r := r + piece;
        return;
      }
      Associate(r, piece, ReplaceFrom(s, pat, rep, next.value));
      r := r + piece;
      start := next.value;
    }
  }

  /** One round of the scan from `start`: the text it emits, and where the
      next round resumes, or None when no match is left and the rest of the
      text was copied. */
  method ScanOnce<T(==)>(s: seq<T>, pat: seq<T>, rep: seq<T>, start: nat)
    returns (piece: seq<T>, next: Option<nat>)
    requires |pat| > 0 && start <= |s|
    ensures next.None? <==> forall j :: start <= j ==> !OccursAt(s, pat, j)
    ensures next.None? ==> piece == s[start..] && piece == ReplaceFrom(s, pat, rep, start)
    ensures next.Some? ==> start + |pat| <= next.value <= |s|
    ensures next.Some? ==>
              var j := next.value - |pat|;
              && OccursAt(s, pat, j)
              && (forall k :: start <= k < j ==> !OccursAt(s, pat, k))
              && piece == s[start..j] + rep
    ensures next.Some? ==>
              piece + ReplaceFrom(s, pat, rep, next.value) == ReplaceFrom(s, pat, rep, start)
  {
    var found := IndexFrom(s, pat, start);
    if found.None? {
      ReplaceNoMatch(s, pat, rep, start);
      return s[start..], None;
    }
    var j := found.value;
    ReplaceUpToMatch(s, pat, rep, start, j);
    var k := j + |pat|;
    piece, next := s[start..j] + rep, Some(k);
    ghost var after := ReplaceFrom(s, pat, rep, k);
    assert ReplaceFrom(s, pat, rep, start) == piece + after;
    assert next.value == k;
  }

  lemma Associate<T>(a: seq<T>, b: seq<T>, c: seq<T>)
    ensures a + (b + c) == (a + b) + c
  {
  }

  /** Concatenation regrouped, kept apart from the proofs that need it. */
  lemma Regroup<T>(a: seq<T>, b: seq<T>, c: seq<T>, d: seq<T>)
    ensures a + (b + c + d) == (a + b) + c + d
  {
  }

  /** Where no match starts, the scan copies one element and moves on. */
  lemma ReplaceSkip<T>(s: seq<T>, pat: seq<T>, rep: seq<T>, i: nat)
    requires |pat| > 0 && i < |s|
    requires !OccursAt(s, pat, i)
    ensures ReplaceFrom(s, pat, rep, i) == [s[i]] + ReplaceFrom(s, pat, rep, i + 1)
  {
    if |s| < i + |pat| {
      assert s[i..] == [s[i]] + s[i + 1..];
    }
  }

  /** Text without any occurrence of the pattern is returned unchanged. */
  lemma {:induction false} ReplaceNoMatch<T>(s: seq<T>, pat: seq<T>, rep: seq<T>, i: nat)
    requires |pat| > 0 && i <= |s|
    requires forall j :: i <= j ==> !OccursAt(s, pat, j)
    ensures ReplaceFrom(s, pat, rep, i) == s[i..]
    decreases |s| - i
  {
    if i + |pat| <= |s| {
      assert !OccursAt(s, pat, i);
      ReplaceNoMatch(s, pat, rep, i + 1);
      assert s[i..] == [s[i]] + s[i + 1..];
    }
  }

  /** Text before the first match is copied, the match is replaced, and the
      scan resumes right after the match. */
  lemma {:induction false} ReplaceUpToMatch<T>(s: seq<T>, pat: seq<T>, rep: seq<T>, i: nat, j: nat)
    requires |pat| > 0 && i <= j
    requires OccursAt(s, pat, j)
    requires forall k :: i <= k < j ==> !OccursAt(s, pat, k)
    ensures ReplaceFrom(s, pat, rep, i) == s[i..j] + rep + ReplaceFrom(s, pat, rep, j + |pat|)
    decreases j - i, 1
  {
    if i < j {
      UpToMatchSkip(s, pat, rep, i, j);
    } else {
      ReplaceMatch(s, pat, rep, i);
      assert s[i..j] == [];
    }
  }

  lemma {:induction false} UpToMatchSkip<T>(s: seq<T>, pat: seq<T>, rep: seq<T>, i: nat, j: nat)
    requires |pat| > 0 && i < j
    requires OccursAt(s, pat, j)
    requires forall k :: i <= k < j ==> !OccursAt(s, pat, k)
    ensures ReplaceFrom(s, pat, rep, i) == s[i..j] + rep + ReplaceFrom(s, pat, rep, j + |pat|)
    decreases j - i, 0
  {
    ReplaceSkip(s, pat, rep, i);
    ReplaceUpToMatch(s, pat, rep, i + 1, j);
    var x := ReplaceFrom(s, pat, rep, j + |pat|);
    var mid := s[i + 1..j];
    assert s[i..j] == [s[i]] + mid;
    Regroup([s[i]], mid, rep, x);
  }

  /** `s` from `i` on and `t` from `k` on hold the same elements. */
  predicate SameAhead<T(==)>(s: seq<T>, i: nat, t: seq<T>, k: nat)
  {
    i <= |s| && k <= |t| && |s| - i == |t| - k &&
    forall j :: i <= j < |s| ==> s[j] == t[j - i + k]
  }

  /** The scan depends only on the text still ahead of it. */
  lemma {:induction false} ReplaceAhead<T>(s: seq<T>, i: nat, t: seq<T>, k: nat, pat: seq<T>, rep: seq<T>)
    requires |pat| > 0 && SameAhead(s, i, t, k)
    ensures ReplaceFrom(s, pat, rep, i) == ReplaceFrom(t, pat, rep, k)
    decreases |s| - i, 1
  {
    if i + |pat| <= |s| {
      if OccursAt(s, pat, i) {
        AheadMatch(s, i, t, k, pat, rep);
      } else {
        AheadSkip(s, i, t, k, pat, rep);
      }
    } else {
      forall d | 0 <= d < |s| - i
        ensures s[i..][d] == t[k..][d]
      {
        assert s[i..][d] == s[i + d];
      }
      assert s[i..] == t[k..];
    }
  }

  lemma {:induction false} AheadMatch<T>(s: seq<T>, i: nat, t: seq<T>, k: nat, pat: seq<T>, rep: seq<T>)
    requires |pat| > 0 && SameAhead(s, i, t, k)
    requires OccursAt(s, pat, i)
    ensures ReplaceFrom(s, pat, rep, i) == ReplaceFrom(t, pat, rep, k)
    decreases |s| - i, 0
  {
    AheadWindow(s, i, t, k, pat);
    AheadShift(s, i, t, k, |pat|);
    ReplaceMatch(s, pat, rep, i);
    ReplaceMatch(t, pat, rep, k);
    ReplaceAhead(s, i + |pat|, t, k + |pat|, pat, rep);
    var x, y := ReplaceFrom(s, pat, rep, i + |pat|), ReplaceFrom(t, pat, rep, k + |pat|);
    assert x == y;
    assert ReplaceFrom(s, pat, rep, i) == rep + x;
    assert ReplaceFrom(t, pat, rep, k) == rep + y;
  }

  lemma {:induction false} AheadSkip<T>(s: seq<T>, i: nat, t: seq<T>, k: nat, pat: seq<T>, rep: seq<T>)
    requires |pat| > 0 && SameAhead(s, i, t, k) && i + |pat| <= |s|
    requires !OccursAt(s, pat, i)
    ensures ReplaceFrom(s, pat, rep, i) == ReplaceFrom(t, pat, rep, k)
    decreases |s| - i, 0
  {
    AheadWindow(s, i, t, k, pat);
    AheadShift(s, i, t, k, 1);
    assert s[i] == t[i - i + k];
    ReplaceSkip(s, pat, rep, i);
    ReplaceSkip(t, pat, rep, k);
    ReplaceAhead(s, i + 1, t, k + 1, pat, rep);
    var x, y := ReplaceFrom(s, pat, rep, i + 1), ReplaceFrom(t, pat, rep, k + 1);
    assert x == y;
    assert ReplaceFrom(s, pat, rep, i) == [s[i]] + x;
    assert ReplaceFrom(t, pat, rep, k) == [t[k]] + y;
  }

  lemma AheadWindow<T>(s: seq<T>, i: nat, t: seq<T>, k: nat, pat: seq<T>)
    requires SameAhead(s, i, t, k)
    ensures OccursAt(s, pat, i) <==> OccursAt(t, pat, k)
  {
    if i + |pat| <= |s| {
      var ws, wt := s[i..i + |pat|], t[k..k + |pat|];
      forall d | 0 <= d < |pat|
        ensures ws[d] == wt[d]
      {
        assert s[i + d] == t[(i + d) - i + k];
      }
      assert ws == wt;
    }
  }

  lemma AheadShift<T>(s: seq<T>, i: nat, t: seq<T>, k: nat, n: nat)
    requires SameAhead(s, i, t, k) && i + n <= |s|
    ensures SameAhead(s, i + n, t, k + n)
  {
    forall j | i + n <= j < |s|
      ensures s[j] == t[j - (i + n) + (k + n)]
    {
      assert s[j] == t[j - i + k];
    }
  }

  /** Text in front of the scan position makes no difference. */
  lemma {:induction false} ReplaceAfterPrefix<T>(p: seq<T>, g: seq<T>, pat: seq<T>, rep: seq<T>)
    requires |pat| > 0
    ensures ReplaceFrom(p + g, pat, rep, |p|) == ReplaceAll(g, pat, rep)
  {
    forall j | |p| <= j < |p + g|
      ensures (p + g)[j] == g[j - |p| + 0]
    {
    }
    ReplaceAhead(p + g, |p|, g, 0, pat, rep);
  }

  /** A text of exactly one pattern becomes exactly the replacement. */
  lemma ReplaceWhole<T>(pat: seq<T>, rep: seq<T>)
    requires |pat| > 0
    ensures ReplaceAll(pat, pat, rep) == rep
  {
    assert OccursAt(pat, pat, 0);
    assert ReplaceFrom(pat, pat, rep, |pat|) == [];
  }

  /** Where a match starts, the scan emits the replacement and jumps past it. */
  lemma ReplaceMatch<T>(s: seq<T>, pat: seq<T>, rep: seq<T>, i: nat)
    requires |pat| > 0 && i <= |s|
    requires OccursAt(s, pat, i)
    ensures ReplaceFrom(s, pat, rep, i) == rep + ReplaceFrom(s, pat, rep, i + |pat|)
  {
  }

  /** Replacing a pattern by itself changes nothing: inserted text is not
      rescanned, so no match is ever replaced twice. */
  lemma {:induction false} ReplaceWithItself<T>(s: seq<T>, pat: seq<T>, i: nat)
    requires |pat| > 0 && i <= |s|
    ensures ReplaceFrom(s, pat, pat, i) == s[i..]
    decreases |s| - i, 1
  {
    if i + |pat| <= |s| {
      if OccursAt(s, pat, i) {
        ItselfAtMatch(s, pat, i);
      } else {
        ItselfAtSkip(s, pat, i);
      }
    }
  }

  lemma {:induction false} ItselfAtMatch<T>(s: seq<T>, pat: seq<T>, i: nat)
    requires |pat| > 0 && i + |pat| <= |s|
    requires OccursAt(s, pat, i)
    ensures ReplaceFrom(s, pat, pat, i) == s[i..]
    decreases |s| - i, 0
  {
    ReplaceMatch(s, pat, pat, i);
    ReplaceWithItself(s, pat, i + |pat|);
    SplitSuffix(s, i, i + |pat|);
  }

  lemma {:induction false} ItselfAtSkip<T>(s: seq<T>, pat: seq<T>, i: nat)
    requires |pat| > 0 && i + |pat| <= |s|
    requires !OccursAt(s, pat, i)
    ensures ReplaceFrom(s, pat, pat, i) == s[i..]
    decreases |s| - i, 0
  {
    ReplaceSkip(s, pat, pat, i);
    ReplaceWithItself(s, pat, i + 1);
    SplitSuffix(s, i, i + 1);
    assert s[i..i + 1] == [s[i]];
  }

  /** A suffix is the slice up to `k` followed by the suffix from `k`. */
  lemma SplitSuffix<T>(s: seq<T>, i: nat, k: nat)
    requires i <= k <= |s|
    ensures s[i..] == s[i..k] + s[k..]
  {
  }

  /** Each replaced match grows or shrinks the text by the difference of the
      two lengths. */
  lemma {:induction false} ReplaceLength<T>(s: seq<T>, pat: seq<T>, rep: seq<T>, i: nat)
    requires |pat| > 0 && i <= |s|
    ensures |ReplaceFrom(s, pat, rep, i)| == |s| - i + CountFrom(s, pat, i) * (|rep| - |pat|)
    decreases |s| - i
  {
    if i + |pat| <= |s| {
      if OccursAt(s, pat, i) {
        ReplaceLength(s, pat, rep, i + |pat|);
        LengthStep(|s| - i, |pat|, |rep|, CountFrom(s, pat, i + |pat|));
      } else {
        ReplaceLength(s, pat, rep, i + 1);
      }
    }
  }

  /** The arithmetic of one replaced match, for `ReplaceLength`: `m` is the
      length still to scan and `n` the matches after this one. */
  lemma LengthStep(m: int, p: int, q: int, n: int)
    ensures q + (m - p + n * (q - p)) == m + (1 + n) * (q - p)
  {
  }

  /** Per-element substitution: each `c` becomes `rep`, every other element
      stays as it is. */
  function SubstituteEach<T(==)>(s: seq<T>, c: T, rep: seq<T>): seq<T>
  {
    if s == [] then []
    else (if s[0] == c then rep else [s[0]]) + SubstituteEach(s[1..], c, rep)
  }

  /** With a one-element pattern the scan is per-element substitution. */
  lemma {:induction false} ReplaceSingle<T>(s: seq<T>, c: T, rep: seq<T>, i: nat)
    requires i <= |s|
    ensures ReplaceFrom(s, [c], rep, i) == SubstituteEach(s[i..], c, rep)
    decreases |s| - i
  {
    if i < |s| {
      ReplaceSingle(s, c, rep, i + 1);
      assert s[i..][1..] == s[i + 1..];
      assert OccursAt(s, [c], i) <==> s[i] == c;
    }
  }
}

=== FILE: templates.dfy ===
/** The three walks of the template code: `CopyTemplateFilesDryRun`,
    `CopyTemplateFiles` and `fixWindowsLineEndings`. File-system calls are
    not modelled; each action instead names the call it makes (an `Effect`),
    and a parameter `fs` gives the file system's answer to it. */
module Templates {
  import opened Common
  import opened Replace
  import opened Binary
  import opened Content
  import opened Walk
  import opened ExistingFiles

  /** The file-system call an action makes for a visit. */
  datatype Effect =
    | MakeDir(path: Path)
    | WriteFile(path: Path, data: Bytes, overwrite: bool)

  /** The file system's answer; `isExist` is Go's `os.IsExist(err)`. */
  datatype Outcome = Done | Failed(error: Error, isExist: bool)

  /** `filepath.Base`: the last component, "." for an empty path. */
  function Base(p: Path): Bytes
  {
    if p == [] then Lit(".") else p[|p| - 1]
  }

  /** The call `CopyTemplateFiles` makes for a visit: make the directory, or
      write the file's bytes, substituted unless the file is binary. */
  function CopyEffect(v: Visit, force: bool, projectName: Bytes, projectDescription: Bytes): Effect
  {
    if v.node.IsDir() then MakeDir(v.dest)
    else WriteFile(v.dest, CopiedContent(v.node.content, projectName, projectDescription), force)
  }

  /** The error an action returns after a write: a write that found the file
      already there becomes the overwrite error naming that one file. */
  function WriteError(dest: Path, o: Outcome): Option<Error>
  {
    match o
    case Done => None
    case Failed(e, isExist) =>
      if isExist then Some(ExistingFiles(ExistingFilesMessage([Base(dest)]))) else Some(e)
  }

  /** The action of `CopyTemplateFiles`; `os.Mkdir` errors are returned as they are. */
  function CopyStep(v: Visit, force: bool, projectName: Bytes, projectDescription: Bytes,
                    fs: Effect -> Outcome): Option<Error>
  {
    var o := fs(CopyEffect(v, force, projectName, projectDescription));
    if v.node.IsDir() then (if o.Done? then None else Some(o.error))
    else WriteError(v.dest, o)
  }

  function CopyTemplateFiles(root: Node, src: Path, dst: Path, force: bool,
                             projectName: Bytes, projectDescription: Bytes,
                             fs: Effect -> Outcome): WalkResult
    requires root.IsDir() && src != [] && dst != []
  {
    WalkFiles(root, src, dst, v => CopyStep(v, force, projectName, projectDescription, fs))
  }

  /** What `CopyTemplateFiles` asks of the file system: for each entry
      visited, the directory is made or the file written at the mirrored
      dest path; written bytes are the template's own when the file is
      binary and the substituted text otherwise; the manifest is never
      copied; and on success every entry of the template was handled. */
  lemma CopyTemplateFilesEffects(root: Node, src: Path, dst: Path, force: bool,
                                 projectName: Bytes, projectDescription: Bytes,
                                 fs: Effect -> Outcome)
    requires root.IsDir() && src != [] && dst != []
    ensures var r := CopyTemplateFiles(root, src, dst, force, projectName, projectDescription, fs);
      && (r.error.None? ==> r.trace == FullListing(root, src, dst))
      && forall k :: 0 <= k < |r.trace| ==>
           var v := r.trace[k];
           var e := CopyEffect(v, force, projectName, projectDescription);
           && Mirrors(v, src, dst)
           && e.path == v.dest
           && !Skipped(v.node)
           && (v.node.IsDir() ==> e.MakeDir?)
           && (v.node.File? && IsBinary(v.node.content) ==> e == WriteFile(v.dest, v.node.content, force))
           && (v.node.File? && !IsBinary(v.node.content) ==>
                 e == WriteFile(v.dest, Transform(v.node.content, projectName, projectDescription), force))
  {
    var act := v => CopyStep(v, force, projectName, projectDescription, fs);
    WalkFilesContract(root, src, dst, act);
  }

  /** A write that finds the file already present stops the copy with the
      overwrite error, and the message names just that file. */
  lemma CopyStopsOnExistingFile(v: Visit, force: bool, projectName: Bytes, projectDescription: Bytes,
                                fs: Effect -> Outcome)
    requires v.node.File? && v.dest != []
    requires var o := fs(CopyEffect(v, force, projectName, projectDescription)); o.Failed? && o.isExist
    ensures var r := CopyStep(v, force, projectName, projectDescription, fs);
      && r == Some(ExistingFiles(ExistingFilesMessage([Base(v.dest)])))
      && (NoNewline(Base(v.dest)) ==>
            ParseExistingFilesMessage(r.value.message) == Some([v.dest[|v.dest| - 1]]))
  {
    if NoNewline(Base(v.dest)) {
      MessageRoundTrip([Base(v.dest)]);
    }
  }

  /** The base names of the visited dest paths that already exist as files,
      in walk order. */
  function ExistingNames(trace: seq<Visit>, existsAsFile: Path -> bool): seq<Bytes>
  {
    if trace == [] then []
    else (if existsAsFile(trace[0].dest) then [Base(trace[0].dest)] else [])
         + ExistingNames(trace[1..], existsAsFile)
  }

  /** `CopyTemplateFilesDryRun`: walk without side effects, collect the
      names of dest paths that already exist as files, and report them. */
  function CopyTemplateFilesDryRun(root: Node, src: Path, dst: Path,
                                   existsAsFile: Path -> bool): Option<Error>
    requires root.IsDir() && src != [] && dst != []
  {
    var r := WalkFiles(root, src, dst, v => None);
    if r.error.Some? then r.error
    else
      var existing := ExistingNames(r.trace, existsAsFile);
      if |existing| > 0 then Some(ExistingFiles(ExistingFilesMessage(existing))) else None
  }

  lemma {:induction false} ExistingNamesEmpty(trace: seq<Visit>, existsAsFile: Path -> bool)
    ensures ExistingNames(trace, existsAsFile) == [] <==>
            forall k :: 0 <= k < |trace| ==> !existsAsFile(trace[k].dest)
    decreases |trace|
  {
    if trace != [] {
      ExistingNamesEmpty(trace[1..], existsAsFile);
      assert forall k :: 1 <= k < |trace| ==> trace[k] == trace[1..][k - 1];
    }
  }

  lemma {:induction false} ExistingNamesNoNewline(trace: seq<Visit>, existsAsFile: Path -> bool)
    requires forall k :: 0 <= k < |trace| ==> NoNewline(Base(trace[k].dest))
    ensures forall i :: 0 <= i < |ExistingNames(trace, existsAsFile)| ==>
              NoNewline(ExistingNames(trace, existsAsFile)[i])
    decreases |trace|
  {
    if trace != [] {
      assert forall k :: 1 <= k < |trace| ==> trace[k] == trace[1..][k - 1];
      ExistingNamesNoNewline(trace[1..], existsAsFile);
      var head := if existsAsFile(trace[0].dest) then [Base(trace[0].dest)] else [];
      var rest := ExistingNames(trace[1..], existsAsFile);
      assert ExistingNames(trace, existsAsFile) == head + rest;
      forall i | 0 <= i < |head + rest|
        ensures NoNewline((head + rest)[i])
      {
        if i >= |head| {
          assert (head + rest)[i] == rest[i - |head|];
        } else {
          assert NoNewline(Base(trace[0].dest));
          assert (head + rest)[i] == Base(trace[0].dest);
        }
      }
    }
  }

  /** The dry run succeeds exactly when the template can be listed and no
      entry's dest path is an existing file. Otherwise, when no base name
      holds a newline, the overwrite error names, in walk order, every such
      file of the whole template. */
  lemma DryRunReportsExistingFiles(root: Node, src: Path, dst: Path, existsAsFile: Path -> bool)
    requires root.IsDir() && src != [] && dst != []
    ensures var walk := WalkFiles(root, src, dst, v => None);
      var listing := FullListing(root, src, dst);
      var result := CopyTemplateFilesDryRun(root, src, dst, existsAsFile);
      && (result.None? <==>
            walk.error.None? && forall k :: 0 <= k < |listing| ==> !existsAsFile(listing[k].dest))
      && (walk.error.Some? ==> result == walk.error)
      && (walk.error.None? && result.Some? ==> result.value.ExistingFiles?)
      && (result.Some? && result.value.ExistingFiles? && walk.error.None? &&
          (forall k :: 0 <= k < |listing| ==> NoNewline(Base(listing[k].dest))) ==>
            ParseExistingFilesMessage(result.value.message) == Some(ExistingNames(listing, existsAsFile)))
  {
    var act: Visit -> Option<Error> := v => None;
    var walk := WalkFiles(root, src, dst, act);
    var listing := FullListing(root, src, dst);
    WalkFilesContract(root, src, dst, act);
    if walk.error.None? {
      assert walk.trace == listing;
      ExistingNamesEmpty(listing, existsAsFile);
      var names := ExistingNames(listing, existsAsFile);
      if |names| > 0 && forall k :: 0 <= k < |listing| ==> NoNewline(Base(listing[k].dest)) {
        ExistingNamesNoNewline(listing, existsAsFile);
        MessageRoundTrip(names);
      }
    }
  }

  /** The call `fixWindowsLineEndings` makes for a file: rewrite it in place. */
  function ConvertEffect(v: Visit): Effect
    requires v.node.File?
  {
    WriteFile(v.dest, ConvertedContent(v.node.content), true)
  }

  /** The action of `fixWindowsLineEndings`: directories are skipped. */
  function ConvertStep(v: Visit, fs: Effect -> Outcome): Option<Error>
  {
    if v.node.IsDir() then None else WriteError(v.dest, fs(ConvertEffect(v)))
  }

  function FixWindowsLineEndings(root: Node, dir: Path, fs: Effect -> Outcome): WalkResult
    requires root.IsDir() && dir != []
  {
    WalkFiles(root, dir, dir, v => ConvertStep(v, fs))
  }

  /** Every file the conversion visits is rewritten at its own path: a
      binary file with its own bytes, a text file with a `\r` put before
      every `\n`; either way the original can be recovered from what is
      written. */
  lemma FixWindowsLineEndingsInPlace(root: Node, dir: Path, fs: Effect -> Outcome)
    requires root.IsDir() && dir != []
    ensures var r := FixWindowsLineEndings(root, dir, fs);
      forall k :: 0 <= k < |r.trace| && r.trace[k].node.File? ==>
        var v := r.trace[k];
        var e := ConvertEffect(v);
        && e.path == v.source
        && (IsBinary(v.node.content) ==> e.data == v.node.content)
        && (!IsBinary(v.node.content) ==> e.data == SubstituteEach(v.node.content, LF, CRLF))
        && RestoredContent(e.data) == v.node.content
  {
    var act := v => ConvertStep(v, fs);
    var r := FixWindowsLineEndings(root, dir, fs);
    WalkFilesContract(root, dir, dir, act);
    forall k | 0 <= k < |r.trace| && r.trace[k].node.File?
      ensures ConvertEffect(r.trace[k]).path == r.trace[k].source
      ensures !IsBinary(r.trace[k].node.content) ==>
                ConvertEffect(r.trace[k]).data == SubstituteEach(r.trace[k].node.content, LF, CRLF)
      ensures RestoredContent(ConvertEffect(r.trace[k]).data) == r.trace[k].node.content
    {
      var v := r.trace[k];
      assert Mirrors(v, dir, dir);
      assert v.source == v.source[..|dir|] + v.source[|dir|..];
      ConversionRoundTrip(v.node.content);
      ToCRLFPerByte(v.node.content);
    }
  }
}

=== FILE: walk.dfy ===
/** `walkFiles`: a depth-first walk over a template directory that calls an
    action for every entry, with the destination path mirroring the source
    path. The action's effects are outside this model; what the walk does
    with the action's answer is modelled by passing the action in as a
    function from the visit to its error, if any. */
module Walk {
  import opened Common

  /** The template manifest, which the walk never hands to the action. */
  const ManifestFile: Bytes := Lit(".pulumi.template.yaml")

  /** A directory entry as `ioutil.ReadDir` lists it, with what lies below it:
      a file (any entry that is not a directory, a symbolic link included)
      with its bytes, a directory with its entries in listing order, or a
      directory whose listing fails with an error. */
  datatype Node =
    | File(name: Bytes, content: Bytes)
    | Dir(name: Bytes, children: seq<Node>)
    | Unreadable(name: Bytes, error: Error)
  {
    predicate IsDir() { !File? }
  }

  /** A path as its components; `filepath.Join(dir, name)` appends `name`. */
  type Path = seq<Bytes>

  /** One call of the action: the entry, its source path and its dest path. */
  datatype Visit = Visit(node: Node, source: Path, dest: Path)

  /** The calls made, in order, and the error the walk returns. */
  datatype WalkResult = WalkResult(trace: seq<Visit>, error: Option<Error>)

  predicate Skipped(n: Node)
  {
    n.File? && n.name == ManifestFile
  }

  function VisitOf(n: Node, src: Path, dst: Path): Visit
  {
    Visit(n, src + [n.name], dst + [n.name])
  }

  /** The loop of `walkFiles` from the `i`-th entry of `dir` on. */
  function WalkEntries(dir: Node, i: nat, src: Path, dst: Path,
                       act: Visit -> Option<Error>): WalkResult
    requires dir.Dir? && i <= |dir.children|
    decreases dir, |dir.children| - i
  {
    if i == |dir.children| then WalkResult([], None)
    else
      var child := dir.children[i];
      var v := VisitOf(child, src, dst);
      if Skipped(child) then WalkEntries(dir, i + 1, src, dst, act)
      else if act(v).Some? then WalkResult([v], act(v))
      else match child
        case File(_, _) =>
          var rest := WalkEntries(dir, i + 1, src, dst, act);
          WalkResult([v] + rest.trace, rest.error)
        case Unreadable(_, e) => WalkResult([v], Some(e))
        case Dir(_, _) =>
          var below := WalkEntries(child, 0, v.source, v.dest, act);
          if below.error.Some? then WalkResult([v] + below.trace, below.error)
          else
            var rest := WalkEntries(dir, i + 1, src, dst, act);
            WalkResult([v] + below.trace + rest.trace, rest.error)
  }

  /** `walkFiles(sourceDir, destDir, actionFn)`. The source requires both
      directory names to be non-empty, and templates are directories. */
  function WalkFiles(root: Node, src: Path, dst: Path, act: Visit -> Option<Error>): WalkResult
    requires root.IsDir() && src != [] && dst != []
  {
    match root
    case Dir(_, _) => WalkEntries(root, 0, src, dst, act)
    case Unreadable(_, e) => WalkResult([], Some(e))
  }

  /** Reference: every visit of the walk when no action fails, in pre-order. */
  function Listing(dir: Node, i: nat, src: Path, dst: Path): seq<Visit>
    requires dir.Dir? && i <= |dir.children|
    decreases dir, |dir.children| - i
  {
    if i == |dir.children| then []
    else
      var child := dir.children[i];
      var v := VisitOf(child, src, dst);
      if Skipped(child) then Listing(dir, i + 1, src, dst)
      else [v] + (if child.Dir? then Listing(child, 0, v.source, v.dest) else [])
               + Listing(dir, i + 1, src, dst)
  }

  function FullListing(root: Node, src: Path, dst: Path): seq<Visit>
  {
    if root.Dir? then Listing(root, 0, src, dst) else []
  }

  /** The dest path is the source path with `src` swapped for `dst`, and the
      last component is the entry's name. */
  predicate Mirrors(v: Visit, src: Path, dst: Path)
  {
    && |v.source| > |src|
    && v.source[..|src|] == src
    && v.dest == dst + v.source[|src|..]
    && v.source[|v.source| - 1] == v.node.name
  }

  /** The directory containing the `k`-th visit's entry was visited earlier,
      unless the entry lies directly in the walked directory. */
  predicate ParentVisitedBefore(l: seq<Visit>, k: nat, depth: nat)
    requires k < |l|
  {
    |l[k].source| > depth + 1 ==>
      exists j :: 0 <= j < k && l[j].node.Dir? && l[j].source == l[k].source[..|l[k].source| - 1]
  }

  /** No manifest file, and every path mirrored. */
  predicate AllMirror(l: seq<Visit>, src: Path, dst: Path)
  {
    forall k :: 0 <= k < |l| ==> !Skipped(l[k].node) && Mirrors(l[k], src, dst)
  }

  predicate ParentsFirst(l: seq<Visit>, depth: nat)
  {
    forall k :: 0 <= k < |l| ==> ParentVisitedBefore(l, k, depth)
  }

  predicate WellOrdered(l: seq<Visit>, src: Path, dst: Path)
  {
    AllMirror(l, src, dst) && ParentsFirst(l, |src|)
  }

  lemma MirrorsNested(w: Visit, src: Path, dst: Path, name: Bytes)
    requires Mirrors(w, src + [name], dst + [name])
    ensures Mirrors(w, src, dst)
    ensures w.source[..|src| + 1] == src + [name]
  {
    assert w.source[..|src|] == w.source[..|src| + 1][..|src|];
    assert w.source[|src|..] == [name] + w.source[|src| + 1..];
  }

  lemma AllMirrorConcat(a: seq<Visit>, b: seq<Visit>, src: Path, dst: Path)
    requires AllMirror(a, src, dst) && AllMirror(b, src, dst)
    ensures AllMirror(a + b, src, dst)
  {
    forall k | |a| <= k < |a + b|
      ensures !Skipped((a + b)[k].node) && Mirrors((a + b)[k], src, dst)
    {
      assert (a + b)[k] == b[k - |a|];
    }
  }

  lemma AllMirrorNested(l: seq<Visit>, src: Path, dst: Path, name: Bytes)
    requires AllMirror(l, src + [name], dst + [name])
    ensures AllMirror(l, src, dst)
  {
    forall k | 0 <= k < |l|
      ensures Mirrors(l[k], src, dst)
    {
      MirrorsNested(l[k], src, dst, name);
    }
  }

  /** The listing never holds the manifest file and mirrors every path. */
  lemma {:induction false} ListingMirrors(dir: Node, i: nat, src: Path, dst: Path)
    requires dir.Dir? && i <= |dir.children|
    ensures AllMirror(Listing(dir, i, src, dst), src, dst)
    decreases dir, |dir.children| - i
  {
    if i < |dir.children| {
      var child := dir.children[i];
      var v := VisitOf(child, src, dst);
      ListingMirrors(dir, i + 1, src, dst);
      if !Skipped(child) {
        var lc := if child.Dir? then Listing(child, 0, v.source, v.dest) else [];
        if child.Dir? {
          ListingMirrors(child, 0, v.source, v.dest);
          AllMirrorNested(lc, src, dst, child.name);
        }
        assert v.source[|src|..] == [child.name];
        assert AllMirror([v], src, dst);
        AllMirrorConcat([v], lc, src, dst);
        AllMirrorConcat([v] + lc, Listing(dir, i + 1, src, dst), src, dst);
      }
    }
  }

  lemma ParentsFirstConcat(a: seq<Visit>, b: seq<Visit>, depth: nat)
    requires ParentsFirst(a, depth) && ParentsFirst(b, depth)
    ensures ParentsFirst(a + b, depth)
  {
    var l := a + b;
    forall k | 0 <= k < |l|
      ensures ParentVisitedBefore(l, k, depth)
    {
      if k < |a| {
        assert l[k] == a[k];
        if |a[k].source| > depth + 1 {
          assert ParentVisitedBefore(a, k, depth);
          var j :| 0 <= j < k && a[j].node.Dir? && a[j].source == a[k].source[..|a[k].source| - 1];
          assert l[j] == a[j];
        }
      } else {
        var k' := k - |a|;
        assert l[k] == b[k'];
        if |b[k'].source| > depth + 1 {
          assert ParentVisitedBefore(b, k', depth);
          var j :| 0 <= j < k' && b[j].node.Dir? && b[j].source == b[k'].source[..|b[k'].source| - 1];
          assert l[j + |a|] == b[j];
        }
      }
    }
  }

  /** A directory's visit followed by the visits of its contents. */
  lemma ParentsFirstUnderDir(v: Visit, lc: seq<Visit>, depth: nat)
    requires v.node.Dir? && |v.source| == depth + 1
    requires ParentsFirst(lc, |v.source|) && AllMirror(lc, v.source, v.dest)
    ensures ParentsFirst([v] + lc, depth)
  {
    var l := [v] + lc;
    forall k | 0 <= k < |l|
      ensures ParentVisitedBefore(l, k, depth)
    {
      if k > 0 {
        var w := lc[k - 1];
        assert l[k] == w;
        if |w.source| > |v.source| + 1 {
          assert ParentVisitedBefore(lc, k - 1, |v.source|);
          var j :| 0 <= j < k - 1 && lc[j].node.Dir? && lc[j].source == w.source[..|w.source| - 1];
          assert l[j + 1] == lc[j];
        } else {
          assert w.source[..|w.source| - 1] == v.source;
          assert l[0] == v;
        }
      }
    }
  }

  /** A directory is visited before anything inside it. */
  lemma {:induction false} ListingParentsFirst(dir: Node, i: nat, src: Path, dst: Path)
    requires dir.Dir? && i <= |dir.children|
    ensures ParentsFirst(Listing(dir, i, src, dst), |src|)
    decreases dir, |dir.children| - i
  {
    if i < |dir.children| {
      var child := dir.children[i];
      var v := VisitOf(child, src, dst);
      ListingParentsFirst(dir, i + 1, src, dst);
      if !Skipped(child) {
        var head: seq<Visit>;
        if child.Dir? {
          var lc := Listing(child, 0, v.source, v.dest);
          ListingParentsFirst(child, 0, v.source, v.dest);
          ListingMirrors(child, 0, v.source, v.dest);
          ParentsFirstUnderDir(v, lc, |src|);
          head := [v] + lc;
        } else {
          head := [v] + [];
          assert ParentVisitedBefore(head, 0, |src|);
        }
        ParentsFirstConcat(head, Listing(dir, i + 1, src, dst), |src|);
      }
    }
  }

  /** The walk's visits, before any failure, keep three promises: the
      manifest file never appears, every dest path mirrors its source path,
      and a directory is visited before anything inside it. */
  lemma ListingWellOrdered(dir: Node, i: nat, src: Path, dst: Path)
    requires dir.Dir? && i <= |dir.children|
    ensures WellOrdered(Listing(dir, i, src, dst), src, dst)
  {
    ListingMirrors(dir, i, src, dst);
    ListingParentsFirst(dir, i, src, dst);
  }

  /** Every prefix of a well-ordered listing is well ordered. */
  lemma WellOrderedPrefix(p: seq<Visit>, l: seq<Visit>, src: Path, dst: Path)
    requires p <= l && WellOrdered(l, src, dst)
    ensures WellOrdered(p, src, dst)
  {
    forall k | 0 <= k < |p|
      ensures ParentVisitedBefore(p, k, |src|)
    {
      assert p[k] == l[k];
      if |l[k].source| > |src| + 1 {
        assert ParentVisitedBefore(l, k, |src|);
        var j :| 0 <= j < k && l[j].node.Dir? && l[j].source == l[k].source[..|l[k].source| - 1];
        assert p[j] == l[j];
      }
    }
  }

  lemma PrefixAfter<T>(a: seq<T>, b: seq<T>, c: seq<T>)
    requires b <= c
    ensures a + b <= a + c
  {
    assert (a + c)[..|a + b|] == a + b;
  }

  /** The visits made are the reference listing cut short at the first
      failure, and all of it when nothing fails. */
  lemma {:induction false} WalkFollowsListing(dir: Node, i: nat, src: Path, dst: Path,
                                               act: Visit -> Option<Error>)
    requires dir.Dir? && i <= |dir.children|
    ensures WalkEntries(dir, i, src, dst, act).trace <= Listing(dir, i, src, dst)
    ensures WalkEntries(dir, i, src, dst, act).error.None? ==>
              WalkEntries(dir, i, src, dst, act).trace == Listing(dir, i, src, dst)
    decreases dir, |dir.children| - i, 1
  {
    if i < |dir.children| {
      var child := dir.children[i];
      var v := VisitOf(child, src, dst);
      if Skipped(child) {
        WalkFollowsListing(dir, i + 1, src, dst, act);
      } else if child.Dir? && act(v).None? {
        FollowsIntoDir(dir, i, src, dst, act);
      } else {
        var lr := Listing(dir, i + 1, src, dst);
        var lc := if child.Dir? then Listing(child, 0, v.source, v.dest) else [];
        assert Listing(dir, i, src, dst) == [v] + (lc + lr);
        if child.File? && act(v).None? {
          WalkFollowsListing(dir, i + 1, src, dst, act);
          PrefixAfter([v], WalkEntries(dir, i + 1, src, dst, act).trace, lr);
        } else {
          PrefixAfter([v], [], lc + lr);
        }
      }
    }
  }

  /** `WalkFollowsListing` for an entry that is a directory the action accepts. */
  lemma {:induction false} FollowsIntoDir(dir: Node, i: nat, src: Path, dst: Path,
                                           act: Visit -> Option<Error>)
    requires dir.Dir? && i < |dir.children|
    requires var v := VisitOf(dir.children[i], src, dst);
      !Skipped(dir.children[i]) && dir.children[i].Dir? && act(v).None?
    ensures WalkEntries(dir, i, src, dst, act).trace <= Listing(dir, i, src, dst)
    ensures WalkEntries(dir, i, src, dst, act).error.None? ==>
              WalkEntries(dir, i, src, dst, act).trace == Listing(dir, i, src, dst)
    decreases dir, |dir.children| - i, 0
  {
    var child := dir.children[i];
    var v := VisitOf(child, src, dst);
    var w := WalkEntries(dir, i, src, dst, act);
    var below := WalkEntries(child, 0, v.source, v.dest, act);
    var lc := Listing(child, 0, v.source, v.dest);
    var lr := Listing(dir, i + 1, src, dst);
    WalkFollowsListing(child, 0, v.source, v.dest, act);
    StepIntoDir(dir, i, src, dst, act);
    if below.error.None? {
      WalkFollowsListing(dir, i + 1, src, dst, act);
      var rest := WalkEntries(dir, i + 1, src, dst, act);
      assert w.trace == ([v] + lc) + rest.trace;
      PrefixAfter([v] + lc, rest.trace, lr);
    } else {
      PrefixAfter([v], below.trace, lc + lr);
    }
  }

  /** One step of the walk and of the listing at a directory entry the
      action accepts: its visit, then what lies below it, then the rest. */
  lemma StepIntoDir(dir: Node, i: nat, src: Path, dst: Path, act: Visit -> Option<Error>)
    requires dir.Dir? && i < |dir.children|
    requires var v := VisitOf(dir.children[i], src, dst);
      !Skipped(dir.children[i]) && dir.children[i].Dir? && act(v).None?
    ensures var v := VisitOf(dir.children[i], src, dst);
      var below := WalkEntries(dir.children[i], 0, v.source, v.dest, act);
      var rest := WalkEntries(dir, i + 1, src, dst, act);
      var lc := Listing(dir.children[i], 0, v.source, v.dest);
      && Listing(dir, i, src, dst) == [v] + (lc + Listing(dir, i + 1, src, dst))
      && (below.error.Some? ==> WalkEntries(dir, i, src, dst, act) == WalkResult([v] + below.trace, below.error))
      && (below.error.None? ==>
            WalkEntries(dir, i, src, dst, act) == WalkResult([v] + below.trace + rest.trace, rest.error))
  {
    var v := VisitOf(dir.children[i], src, dst);
    var lc := Listing(dir.children[i], 0, v.source, v.dest);
    var lr := Listing(dir, i + 1, src, dst);
    assert Listing(dir, i, src, dst) == [v] + lc + lr;
    assert [v] + lc + lr == [v] + (lc + lr);
  }

  /** The visit went through: the action returned no error, and the entry,
      if a directory, could be listed. */
  predicate Succeeded(v: Visit, act: Visit -> Option<Error>)
  {
    act(v).None? && !v.node.Unreadable?
  }

  /** Every visit but the last succeeded; without an error all succeeded; an
      error is the last call's error or the listing failure of the last
      directory visited. */
  predicate StopsAtFirstError(r: WalkResult, act: Visit -> Option<Error>)
  {
    && (forall k :: 0 <= k < |r.trace| - 1 ==> Succeeded(r.trace[k], act))
    && (r.error.None? ==> forall k :: 0 <= k < |r.trace| ==> Succeeded(r.trace[k], act))
    && (r.error.Some? ==>
          && |r.trace| > 0
          && var last := r.trace[|r.trace| - 1];
             || r.error == act(last)
             || (act(last).None? && last.node.Unreadable? && r.error == Some(last.node.error)))
  }

  lemma StopsAfterSuccesses(a: seq<Visit>, r: WalkResult, act: Visit -> Option<Error>)
    requires forall k :: 0 <= k < |a| ==> Succeeded(a[k], act)
    requires StopsAtFirstError(r, act)
    ensures StopsAtFirstError(WalkResult(a + r.trace, r.error), act)
  {
    var t := a + r.trace;
    forall k | 0 <= k < |t| && (k < |t| - 1 || r.error.None?)
      ensures Succeeded(t[k], act)
    {
      if k >= |a| {
        assert t[k] == r.trace[k - |a|];
      }
    }
    if r.error.Some? {
      assert t[|t| - 1] == r.trace[|r.trace| - 1];
    }
  }

  /** The walk stops at the first error. */
  lemma {:induction false} WalkStopsAtFirstError(dir: Node, i: nat, src: Path, dst: Path,
                                                  act: Visit -> Option<Error>)
    requires dir.Dir? && i <= |dir.children|
    ensures StopsAtFirstError(WalkEntries(dir, i, src, dst, act), act)
    decreases dir, |dir.children| - i
  {
    if i < |dir.children| {
      var child := dir.children[i];
      var v := VisitOf(child, src, dst);
      var rest := WalkEntries(dir, i + 1, src, dst, act);
      WalkStopsAtFirstError(dir, i + 1, src, dst, act);
      if !Skipped(child) && act(v).None? {
        if child.File? {
          StopsAfterSuccesses([v], rest, act);
        } else if child.Dir? {
          var below := WalkEntries(child, 0, v.source, v.dest, act);
          WalkStopsAtFirstError(child, 0, v.source, v.dest, act);
          if below.error.None? {
            StopsAfterSuccesses([v] + below.trace, rest, act);
          } else {
            StopsAfterSuccesses([v], below, act);
          }
        }
      }
    }
  }

  /** A directory whose listing fails is the last entry visited, and the
      walk returns an error. */
  lemma WalkEndsAtUnreadable(dir: Node, i: nat, src: Path, dst: Path,
                             act: Visit -> Option<Error>, k: nat)
    requires dir.Dir? && i <= |dir.children|
    requires var r := WalkEntries(dir, i, src, dst, act);
      k < |r.trace| && r.trace[k].node.Unreadable?
    ensures var r := WalkEntries(dir, i, src, dst, act);
      k == |r.trace| - 1 && r.error.Some?
  {
    WalkStopsAtFirstError(dir, i, src, dst, act);
  }

  /** Every entry of a directory other than a manifest file is visited, and
      a directory named like the manifest is visited too. */
  lemma {:induction false} ListingComplete(dir: Node, i: nat, src: Path, dst: Path, c: nat)
    requires dir.Dir? && i <= c < |dir.children|
    ensures !Skipped(dir.children[c]) <==> VisitOf(dir.children[c], src, dst) in Listing(dir, i, src, dst)
    decreases |dir.children| - i
  {
    var l := Listing(dir, i, src, dst);
    ListingWellOrdered(dir, i, src, dst);
    if VisitOf(dir.children[c], src, dst) in l {
      var k :| 0 <= k < |l| && l[k] == VisitOf(dir.children[c], src, dst);
      assert !Skipped(l[k].node);
    }
    if c > i {
      ListingComplete(dir, i + 1, src, dst, c);
      var child := dir.children[i];
      if !Skipped(child) {
        var v := VisitOf(child, src, dst);
        var lc := if child.Dir? then Listing(child, 0, v.source, v.dest) else [];
        assert l == [v] + lc + Listing(dir, i + 1, src, dst);
      }
    }
  }

  /** What the walk from a template root promises, in one place. */
  lemma WalkFilesContract(root: Node, src: Path, dst: Path, act: Visit -> Option<Error>)
    requires root.IsDir() && src != [] && dst != []
    ensures var r := WalkFiles(root, src, dst, act);
      && r.trace <= FullListing(root, src, dst)
      && (r.error.None? ==> r.trace == FullListing(root, src, dst))
      && WellOrdered(r.trace, src, dst)
      && (root.Dir? ==> StopsAtFirstError(r, act))
      && (root.Unreadable? ==> r.trace == [] && r.error == Some(root.error))
  {
    if root.Dir? {
      WalkFollowsListing(root, 0, src, dst, act);
      WalkStopsAtFirstError(root, 0, src, dst, act);
      ListingWellOrdered(root, 0, src, dst);
      WellOrderedPrefix(WalkFiles(root, src, dst, act).trace, FullListing(root, src, dst), src, dst);
    }
  }
}
